=== FILE: README.md ===
# wireless — a Dafny model

The `wireless` package is a small Python 2 library that connects a machine to a Wi-Fi network
through the operating system's command-line tools. The `Wireless` facade probes for `nmcli`
(NetworkManager, Linux) and then for `networksetup` (macOS). It builds the matching driver and
forwards `connect(ssid, password)` and `current()` to it. Each driver decides success from the
text its tool prints. The package also has text parsers: one for the macOS scan table and two
for the Windows `netsh` profile listings.

This project models that core as pure functions:

- `Basics` holds `Option`, `Result` and `Min`.
- `Text` models the Python 2 byte-string operations the core relies on. These are `split()`,
  `split(c)`, `splitlines()`, `strip(chars)`, `startswith`, `in`, `replace(pat, '')` and
  `' '.join`. Whitespace is the ASCII set of Python 2 byte strings. Line breaks are `\n`, `\r`
  and `\r\n`.
- `Shell` holds the commands the core issues and the runner. The runner is a function from a
  command to its captured output. `Shell` also holds the exceptions and the
  `Run(outcome, issued)` shape: what an operation returned, and the commands it issued in order.
- `Nmcli` models `NmcliWireless`: `_clean`, `_errorInResponse`, `connect` and `current`.
- `Networksetup` models `NetworksetupWireless`: `_autoDetectInterface`, its constructor,
  `connect` and `current`.
- `Wireless` models the facade: `_detect`, `__init__`, `connect` and `current`.
- `ScanTable` models `_combine_wifi_security_info` and `cleanse_mac_wifi_scan_res`.
- `WinProfiles` models the parsing in `get_win_profiles` and `get_win_profile_ssid`. The
  `netsh` output is passed in as a parameter.

A driver's mutable `_currentSSID` becomes an immutable state value. Every operation returns the
state after the call. When a call raises, the result is an `Err` and the caller keeps the state
it had, because each raise in the source happens before any assignment.

## Model

| member | source | states |
|---|---|---|
| Text.Words | wireless/utils.py:11 | `split()` yields non-empty tokens free of ASCII whitespace; Text.WordsSkip, Text.WordsCons and Text.WordsOfJoin fix which tokens |
| Text.WordsSkip | wireless/utils.py:11 | leading whitespace adds no token: `split()` of whitespace followed by a text is `split()` of the text |
| Text.Join | wireless/utils.py:14 | `sep.join(parts)`: the pieces with `sep` between neighbours; Text.WordsOfJoin and Text.SplitOfJoin state its inverses |
| Text.WordsOfJoin | wireless/utils.py:14 | tokens joined with single spaces split back into the same tokens |
| Text.SplitOn | wireless/utils.py:2 | `split(c)` yields at least one piece, and no piece holds `c` |
| Text.SplitOnCount | wireless/utils.py:2 | `split(c)` yields one piece more than there are occurrences of `c` |
| Text.JoinOfSplit | wireless/utils.py:2 | joining the pieces of `split(c)` with `c` gives back the original text |
| Text.SplitOfJoin | wireless/utils.py:2 | `c`-free pieces joined with `c` split back into exactly those pieces |
| Text.Lines | wireless/Wireless.py:74 | `splitlines()` yields lines free of line breaks, and yields none exactly for the empty text; Text.LinesCons, Text.LinesCrLf, Text.LinesCr and Text.LinesLast fix the lines of every text |
| Text.LinesCons | wireless/Wireless.py:74 | a line ended by `\n` is the first line of `splitlines()`, and the rest are the lines after it |
| Text.LinesCrLf | wireless/__main__.py:45 | a line ended by `\r\n`, as netsh prints, is one line: the pair is a single break |
| Text.LinesCr | wireless/Wireless.py:74 | a line ended by a lone `\r` is the first line, and the rest are the lines after it |
| Text.LinesLast | wireless/Wireless.py:74 | a non-empty last line with no break is a line of its own |
| Text.LinesOfJoinLines | wireless/__main__.py:25 | lines printed one per line come back from `splitlines()` unchanged |
| Text.ContainsIff | wireless/Wireless.py:27 | the substring test `in` holds exactly when the substring occurs at some position |
| Text.FindLine | wireless/__main__.py:45-47 | the scan for the first line holding a marker gives `None` exactly when no line holds it, and otherwise the index of the first such line |
| Text.FindLineAt | wireless/Wireless.py:135-142 | when every line before a given one lacks the marker and that line holds it, the scan stops at that line |
| Text.LinesContaining | wireless/__main__.py:25-26 | the filter keeps only lines that hold the marker, is no longer than its input, and is empty exactly when no line holds the marker |
| Text.LinesContainingAppend | wireless/__main__.py:25-26 | the filter keeps line order across two blocks of lines |
| Text.LastField | wireless/__main__.py:27 | `split(c)[-1]` is a `c`-free suffix of the text, either the whole text or the part after a `c` |
| Text.LastFieldAfter | wireless/__main__.py:27 | the last field of `a + c + b` is `b` when `b` holds no `c` |
| Text.Strip | wireless/__main__.py:47 | `strip(chars)` keeps a contiguous middle part of the text that neither starts nor ends with one of the chars |
| Text.StripPadded | wireless/__main__.py:47 | stripping padding made only of the chars off a text that does not start or end with one gives that text back |
| Text.StripIdempotent | wireless/__main__.py:27 | stripping twice is the same as stripping once |
| Text.RemoveAll | wireless/Wireless.py:138 | `replace(pat, '')` never lengthens the text, leaves it unchanged when `pat` does not occur, and otherwise shortens it by at least `len(pat)`; Text.RemoveFirstOccurrence fixes the result |
| Text.RemoveFirstOccurrence | wireless/Wireless.py:138 | `replace(pat, '')` keeps the text before the first occurrence, drops that occurrence, and goes on removing in the rest |
| Text.RemoveLeading | wireless/Wireless.py:138 | removing the label from label-prefixed text without a further occurrence gives the rest of the text |
| ScanTable.CombineSecurityInfo | wireless/utils.py:10-15 | the result has `min(#tokens, 6) + 1` columns: the first tokens, then a last column that is empty when there are at most six tokens and is always the single-space join of its own tokens |
| ScanTable.SecurityColumnTokens | wireless/utils.py:10-15 | the last column splits back into exactly the tokens after the sixth |
| ScanTable.CombineOfRow | wireless/utils.py:10-15 | a space-separated row of tokens gives its first six tokens plus the rest joined, or all tokens plus `""` when there are fewer than six |
| ScanTable.ZipPrefix | wireless/utils.py:5 | `dict(zip(...))` over a prefix has exactly the keys of that prefix, and a key's value comes from its last position |
| ScanTable.ZipToMap | wireless/utils.py:5 | `dict(zip(keys, vals))` stops at the shorter list, and a repeated key keeps its last value |
| ScanTable.ZipDistinct | wireless/utils.py:5 | with distinct keys and as many values, every key maps to the value at its own position |
| ScanTable.CleanseScanResult | wireless/utils.py:1-7 | one map per newline in the response; every map binds the first header column, and all its keys are header columns |
| ScanTable.CleanseOfTable | wireless/utils.py:1-7 | a header line followed by row lines gives, for each row, the zip of the header's columns with that row's columns |
| ScanTable.TrailingNewlineRow | wireless/utils.py:1-7 | a response ending in a newline ends with a map that binds only the first header column, to `""` |
| ScanTable.SingleRowTable | wireless/utils.py:1-7 | a header line and one row line give a single map that zips their columns |
| ScanTable.ScanRowFields | wireless/utils.py:1-15 | with a distinct six-plus-token header and a six-plus-token row, each header column maps to the row's column at the same position, and the security column maps to the remaining tokens joined |
| WinProfiles.ProfileName | wireless/__main__.py:27 | the profile name is the text after the line's last `:` with the surrounding whitespace removed: a contiguous part of that field, bordered only by whitespace, that neither starts nor ends with whitespace and holds no `:` |
| WinProfiles.SelectProfiles | wireless/__main__.py:25-27 | the names are stripped and `:`-free, and the list is empty exactly when no line holds "All User Profile" |
| WinProfiles.Profiles | wireless/__main__.py:22-28 | `get_win_profiles` on a given output: stripped `:`-free names, none exactly when no line holds "All User Profile" |
| WinProfiles.SelectProfilesOfLine | wireless/__main__.py:25-27 | a single line gives exactly its profile name when it holds "All User Profile", and nothing otherwise; with SelectProfilesAppend, one name per marker line, in line order |
| WinProfiles.SelectProfilesAppend | wireless/__main__.py:25-27 | the names of two blocks of lines are the first block's names followed by the second's |
| WinProfiles.ProfileLineName | wireless/__main__.py:17-19 | a listing line as netsh prints it holds the marker and reads back as its name |
| WinProfiles.ProfilesOfListing | wireless/__main__.py:22-28 | the listing netsh prints for a list of names parses back to exactly that list, in order |
| WinProfiles.SsidValue | wireless/__main__.py:47 | the SSID value is the text after the line's last `:` with surrounding spaces and quotes removed: a contiguous part of that field, bordered only by spaces and quotes, that neither starts nor ends with one and holds no `:` |
| WinProfiles.FirstSsid | wireless/__main__.py:45-47 | `None` exactly when no line holds "SSID name"; otherwise the value of the first such line |
| WinProfiles.ProfileSsid | wireless/__main__.py:43-47 | `get_win_profile_ssid` on a given output gives `None` exactly when no line holds "SSID name", and otherwise the SSID value of the first line that does |
| WinProfiles.SsidLineValue | wireless/__main__.py:37 | an SSID line as netsh prints it holds the marker and reads back as its unquoted SSID |
| WinProfiles.ProfileSsidOfDescription | wireless/__main__.py:43-47 | a description whose first SSID line carries an SSID yields exactly that SSID, whatever surrounds it |
| Nmcli.AnyLineStartsWith | wireless/Wireless.py:87-90 | the loop finds a line with the prefix exactly when some line starts with it |
| Nmcli.ErrorInResponse | wireless/Wireless.py:81-93 | an empty response is no error; otherwise it is an error exactly when some line starts with "Error" |
| Nmcli.ErrorInSingleLine | wireless/Wireless.py:81-93 | a one-line response with no trailing line break is an error exactly when it starts with "Error" |
| Nmcli.ErrorInPrintedLines | wireless/Wireless.py:81-93 | a response printed as lines is an error exactly when one of those lines starts with "Error" |
| Nmcli.CleanLines | wireless/Wireless.py:74-77 | at most one deletion per line, each deleting a single token; it raises exactly when some non-empty line has no token |
| Nmcli.CleanOneLine | wireless/Wireless.py:74-77 | an empty line deletes nothing, a whitespace-only line raises, and any other line deletes its first token; with CleanLinesAppend this fixes every listing |
| Nmcli.Clean | wireless/Wireless.py:68-77 | over the lines of the listing text: at most one deletion per line, each a single token, and a raise exactly when a non-empty line has no token |
| Nmcli.CleanLinesAppend | wireless/Wireless.py:74-77 | cleaning two blocks of lines stops at a raise in the first block, and otherwise deletes the first block's UUIDs, then the second's |
| Nmcli.CleanDeletesListedUuids | wireless/Wireless.py:68-77 | a listing of connection rows deletes exactly the listed UUIDs, in order, without raising |
| Nmcli.Connect | wireless/Wireless.py:96-111 | with no previous SSID only the connect command is issued; a returning connect issues the connect command last and succeeds exactly when the response has no error line; a raise only comes from the cleanup |
| Nmcli.ConnectThenCurrent | wireless/Wireless.py:106-117 | after a returning connect, `current` is the SSID exactly when the connect returned true, and `None` otherwise |
| Nmcli.Current | wireless/Wireless.py:114-117 | `current` reads the stored SSID and issues no command; its value after a connect is stated by Nmcli.ConnectThenCurrent |
| Nmcli.ConnectCleansPrevious | wireless/Wireless.py:96-103 | with a previous SSID, the listing and deletions come first; the connect raises exactly when the cleanup does, and otherwise the connect command follows the deletions |
| Nmcli.ConnectDeletesListedRows | wireless/Wireless.py:68-103 | when the listing for the previous SSID is a block of connection rows, connect issues the listing, then one delete per listed UUID in listing order, then the connect command, and does not raise |
| Nmcli.NoCleanupAfterFailure | wireless/Wireless.py:98-108 | after a failed connect, the next connect issues only its own connect command |
| Nmcli.CleanupAfterSuccess | wireless/Wireless.py:98-111 | after a successful connect, the next connect starts by listing the connections matching that SSID |
| Networksetup.AutoDetectInterface | wireless/Wireless.py:129-145 | the only failure is "unable to auto-detect the network interface" |
| Networksetup.AutoDetectSpec | wireless/Wireless.py:129-145 | detection fails exactly when no line before the last holds "Wi-Fi"; otherwise the result is the line after the first "Wi-Fi" line, with "Device: " removed |
| Networksetup.DetectsListedDevice | wireless/Wireless.py:135-142 | a port listing with a "Wi-Fi" line followed by a "Device: " line yields that device |
| Networksetup.New | wireless/Wireless.py:126-127 | construction issues one listing command and succeeds exactly when detection does, with the detected device and no current SSID |
| Networksetup.Connect | wireless/Wireless.py:148-159 | one command on the bound device; true exactly when the tool prints nothing; the device is unchanged |
| Networksetup.ConnectThenCurrent | wireless/Wireless.py:154-164 | after a connect, `current` is the SSID when the tool was silent, and `None` otherwise |
| Networksetup.Current | wireless/Wireless.py:162-164 | `current` reads the stored SSID and issues no command; its value after a connect is stated by Networksetup.ConnectThenCurrent |
| Wireless.Detect | wireless/Wireless.py:24-35 | nmcli exactly when `which nmcli` finds it; networksetup exactly when only `which networksetup` does; otherwise "no compatible API"; the second probe runs only when the first fails |
| Wireless.New | wireless/Wireless.py:17-22 | when `which nmcli` finds the tool, construction succeeds with a fresh nmcli driver after that one probe; a detection failure is the constructor's failure; the driver built is the one detected; the probes come first among the commands issued |
| Wireless.Connect | wireless/Wireless.py:38-39 | forwarding keeps the kind of driver |
| Wireless.Current | wireless/Wireless.py:42-43 | `current` forwards to the selected driver's `current` |
| Wireless.ConnectDelegates | wireless/Wireless.py:38-39 | the facade's connect returns, issues and leaves in place exactly what the driver's connect does |
| Wireless.NmcliWins | wireless/Wireless.py:26-28 | whenever nmcli is found, whether or not networksetup is installed, the facade drives a fresh nmcli driver and issues only the nmcli probe |
| Wireless.NetworksetupConstruction | wireless/Wireless.py:17-33 | without nmcli but with networksetup, construction probes both tools, reads the hardware ports and binds the detected device |
| Wireless.NewHasNoCurrent | wireless/Wireless.py:17-22 | a freshly constructed facade reports no current network |
| Wireless.ConnectThenCurrent | wireless/Wireless.py:38-43 | after a returning connect, `current` is the SSID exactly when the connect returned true |

## Left out

- `cmd` (wireless/Wireless.py:6-9) runs a shell through `subprocess`. It is modelled as the
  runner parameter, a pure function from command to output. A real tool can print different
  text for the same command at different times; the model gives each command one answer per
  runner.
- The command strings built with `format` and `%` are not modelled. Commands are the `Command`
  datatype. Quoting and shell injection through an SSID or password are out of scope.
- The abstract `WirelessDriver` base class (wireless/Wireless.py:47-58) holds no behaviour. Its
  role is the `Wireless.Driver` datatype.
- The facade leaves `_driver` as `None` when `_detect` returns another name (wireless/Wireless.py:17-22).
  That cannot happen, because `_detect` returns one of the two names or raises.
- Keyword-argument forwarding (`**kwargs`) is modelled as positional arguments.
- `get_win_profiles` and `get_win_profile_ssid` take the netsh output as a parameter. The call
  to `cmd` and the Windows-only script block (wireless/__main__.py:50-55) that prints them are
  not modelled.
- Python 3 `str.splitlines` splits on more characters than Python 2 byte strings do (form feed,
  vertical tab, Unicode separators). The model follows Python 2, the language of the source.
- The unit tests and setup.py are not part of this model: they exercise the shell and packaging.

=== FILE: basics.dfy ===
/** Small value types shared by every module of the model. */
module Basics {

  /** Python's `None` or a present value. */
  datatype Option<+T> = None | Some(value: T)

  /** A returned value, or the exception that the Python code raises instead. */
  datatype Result<+T, +E> = Ok(value: T) | Err(error: E)

  function Min(a: int, b: int): (m: int)
    ensures m <= a && m <= b && (m == a || m == b)
  {
    if a <= b then a else b
  }
}

=== FILE: networksetup.dfy ===
/** `NetworksetupWireless` of wireless/Wireless.py: the macOS driver. It finds its Wi-Fi device
    once, at construction, and treats a silent connect as success. */
module Networksetup {
  import opened Basics
  import opened Text
  import opened Shell

  /** The hardware-port line that announces the Wi-Fi port. */
  const WifiMarker := "Wi-Fi"

  /** The label in front of the device name on the line after it. */
  const DeviceLabel := "Device: "

  /** The driver's state: `_interface`, fixed at construction, and `_currentSSID`. */
  datatype Driver = Driver(device: string, currentSsid: Option<string>)

  /** `_autoDetectInterface`, given what `networksetup -listallhardwareports` printed: the line
      after the first line holding "Wi-Fi", with "Device: " removed. */
  function AutoDetectInterface(listing: string): (r: Result<string, Error>)
    ensures r.Err? ==> r.error == InterfaceNotDetected
  {
    var lines := Lines(listing);
    match FindLine(lines, WifiMarker)
    case None => Err(InterfaceNotDetected)
    case Some(k) =>
      if k + 1 < |lines| then Ok(RemoveAll(lines[k + 1], DeviceLabel)) else Err(InterfaceNotDetected)
  }

  /** No line that has a line after it holds `marker`. */
  ghost predicate NoneBeforeLast(lines: seq<string>, marker: string)
  {
    forall k :: 0 <= k && k + 1 < |lines| ==> !Contains(lines[k], marker)
  }

  /** The first marked line has a successor exactly when some line before the last is marked. */
  lemma FirstMarkedHasNext(lines: seq<string>, marker: string)
    ensures NoneBeforeLast(lines, marker) <==>
      FindLine(lines, marker).None? || FindLine(lines, marker).value + 1 == |lines|
  {
    var r := FindLine(lines, marker);
    if r.Some? && r.value + 1 == |lines| {
      forall k | 0 <= k && k + 1 < |lines| ensures !Contains(lines[k], marker) {
        assert lines[..r.value][k] == lines[k];
      }
    }
  }

  /** Detection fails exactly when no line before the last holds "Wi-Fi"; otherwise it reads the
      line after the first one that does. */
  lemma AutoDetectSpec(listing: string)
    ensures AutoDetectInterface(listing).Err? <==> NoneBeforeLast(Lines(listing), WifiMarker)
    ensures var lines := Lines(listing);
      AutoDetectInterface(listing).Ok? ==>
        exists k: nat :: k + 1 < |lines| && FirstLineContaining(lines, WifiMarker, k)
          && AutoDetectInterface(listing).value == RemoveAll(lines[k + 1], DeviceLabel)
  {
    FirstMarkedHasNext(Lines(listing), WifiMarker);
  }

  /** The two lines networksetup prints for the Wi-Fi port yield its device name. */
  lemma DetectsListedDevice(pre: seq<string>, port: string, device: string, post: seq<string>)
    requires NoLineContains(pre, WifiMarker)
    requires Contains(port, WifiMarker)
    requires forall k :: 0 <= k < |pre| ==> Free(pre[k], LineBreaks)
    requires forall k :: 0 <= k < |post| ==> Free(post[k], LineBreaks)
    requires Free(port, LineBreaks) && Free(DeviceLabel + device, LineBreaks)
    requires !Contains(device, DeviceLabel)
    ensures AutoDetectInterface(JoinLines(pre + [port] + ([DeviceLabel + device] + post))) == Ok(device)
  {
    var rest := [DeviceLabel + device] + post;
    var ls := pre + [port] + rest;
    forall k | 0 <= k < |ls| ensures Free(ls[k], LineBreaks) {
      if k < |pre| { assert ls[k] == pre[k]; }
      else if k == |pre| { assert ls[k] == port; }
      else { assert ls[k] == rest[k - |pre| - 1]; }
    }
    LinesOfJoinLines(ls);
    FindLineAt(pre, port, rest, WifiMarker);
    assert ls[|pre| + 1] == DeviceLabel + device;
    RemoveLeading(DeviceLabel, device);
  }

  /** `NetworksetupWireless()`: a driver bound to the detected device, with no current SSID. */
  function New(run: Runner): (r: Run<Driver>)
    ensures r.issued == [ListAllHardwarePorts]
    ensures r.outcome.Ok? <==> AutoDetectInterface(run(ListAllHardwarePorts)).Ok?
    ensures r.outcome.Ok? ==>
      r.outcome.value == Driver(AutoDetectInterface(run(ListAllHardwarePorts)).value, None)
  {
    match AutoDetectInterface(run(ListAllHardwarePorts))
    case Ok(device) => Run(Ok(Driver(device, None)), [ListAllHardwarePorts])
    case Err(e) => Run(Err(e), [ListAllHardwarePorts])
  }

  /** `connect`: one setairportnetwork command on the bound device; success exactly when it
      prints nothing. The device never changes. */
  function Connect(d: Driver, ssid: string, password: string, run: Runner): (r: Run<Reply<bool, Driver>>)
    ensures r.issued == [SetAirportNetwork(d.device, ssid, password)]
    ensures r.outcome.Ok?
    ensures r.outcome.value.value <==> |run(SetAirportNetwork(d.device, ssid, password))| == 0
    ensures r.outcome.value.next.device == d.device
  {
    var response := run(SetAirportNetwork(d.device, ssid, password));
    if |response| == 0 then Run(Ok(Reply(true, Driver(d.device, Some(ssid)))), [SetAirportNetwork(d.device, ssid, password)])
    else Run(Ok(Reply(false, Driver(d.device, None))), [SetAirportNetwork(d.device, ssid, password)])
  }

  /** `current`: the SSID of the last successful connect, with no command issued. */
  function Current(d: Driver): (r: Option<string>)
  {
    d.currentSsid
  }

  /** After a connect, `current` reports the requested SSID when the tool was silent and `None`
      when it printed anything. */
  lemma ConnectThenCurrent(d: Driver, ssid: string, password: string, run: Runner)
    ensures var response := run(SetAirportNetwork(d.device, ssid, password));
      Current(Connect(d, ssid, password, run).outcome.value.next) == (if |response| == 0 then Some(ssid) else None)
  {
  }
}

=== FILE: nmcli.dfy ===
/** `NmcliWireless` of wireless/Wireless.py: the NetworkManager driver. Its only state is the
    SSID it last connected to; success is read from the text nmcli prints. */
module Nmcli {
  import opened Basics
  import opened Text
  import opened Shell

  /** Every nmcli error line starts with this word. */
  const ErrorPrefix := "Error"

  /** The driver's state, `_currentSSID`. */
  datatype Driver = Driver(currentSsid: Option<string>)

  /** A new driver: `_currentSSID` starts as `None`. */
  const Fresh := Driver(None)

  /** Some line of `lines` starts with `prefix`. */
  function AnyLineStartsWith(lines: seq<string>, prefix: string): (b: bool)
    ensures b <==> exists k :: 0 <= k < |lines| && StartsWith(lines[k], prefix)
    decreases |lines|
  {
    if |lines| == 0 then false
    else if StartsWith(lines[0], prefix) then true
    else
      var b := AnyLineStartsWith(lines[1..], prefix);
      assert forall k :: 1 <= k < |lines| ==> lines[k] == lines[1..][k - 1];
      b
  }

  /** `_errorInResponse`: the response reports an error exactly when one of its lines starts
      with "Error"; warnings on other lines do not count, and an empty response is no error. */
  function ErrorInResponse(response: string): (b: bool)
    ensures |response| == 0 ==> !b
    ensures b <==> exists k :: 0 <= k < |Lines(response)| && StartsWith(Lines(response)[k], ErrorPrefix)
  {
    if |response| == 0 then false
    else AnyLineStartsWith(Lines(response), ErrorPrefix)
  }

  /** A response printed as separate lines is an error exactly when one of them starts with
      "Error". */
  lemma ErrorInPrintedLines(ls: seq<string>)
    requires forall k :: 0 <= k < |ls| ==> Free(ls[k], LineBreaks)
    ensures ErrorInResponse(JoinLines(ls)) <==> exists k :: 0 <= k < |ls| && StartsWith(ls[k], ErrorPrefix)
  {
    LinesOfJoinLines(ls);
  }

  /** A one-line response without a trailing line break, as nmcli prints its failures, is an
      error exactly when that line starts with "Error". */
  lemma ErrorInSingleLine(line: string)
    requires |line| > 0 && Free(line, LineBreaks)
    ensures ErrorInResponse(line) <==> StartsWith(line, ErrorPrefix)
  {
    LinesLast(line);
  }

  /** What `_clean` did: the UUIDs it asked nmcli to delete, in order, and whether it then
      raised on a non-empty line without a token. */
  datatype Cleanup = Cleanup(deleted: seq<string>, raised: bool)

  /** The loop of `_clean` over the lines of the connection listing. */
  function CleanLines(lines: seq<string>): (c: Cleanup)
    ensures |c.deleted| <= |lines|
    ensures forall k :: 0 <= k < |c.deleted| ==> IsWord(c.deleted[k])
    ensures c.raised <==> exists k :: 0 <= k < |lines| && |lines[k]| > 0 && |Words(lines[k])| == 0
    decreases |lines|
  {
    if |lines| == 0 then Cleanup([], false)
    else
      var rest := CleanLines(lines[1..]);
      assert forall k :: 1 <= k < |lines| ==> lines[k] == lines[1..][k - 1];
      if |lines[0]| == 0 then rest
      else
        var ws := Words(lines[0]);
        if |ws| == 0 then Cleanup([], true)
        else Cleanup([ws[0]] + rest.deleted, rest.raised)
  }

  /** `_clean`, given what the connection listing printed: at most one deletion per line of the
      listing, each of a single token, and a raise exactly when a non-empty line holds no token. */
  function Clean(listing: string): (c: Cleanup)
    ensures |c.deleted| <= |Lines(listing)|
    ensures forall k :: 0 <= k < |c.deleted| ==> IsWord(c.deleted[k])
    ensures c.raised <==> exists k :: 0 <= k < |Lines(listing)| && |Lines(listing)[k]| > 0 && |Words(Lines(listing)[k])| == 0
  {
    CleanLines(Lines(listing))
  }

  /** The deletions of a listing made of two blocks: those of the first block, then, unless it
      raised, those of the second. */
  lemma {:induction false} CleanLinesAppend(a: seq<string>, b: seq<string>)
    ensures CleanLines(a).raised ==> CleanLines(a + b) == CleanLines(a)
    ensures !CleanLines(a).raised ==>
      CleanLines(a + b) == Cleanup(CleanLines(a).deleted + CleanLines(b).deleted, CleanLines(b).raised)
    decreases |a|
  {
    if |a| == 0 {
      assert a + b == b;
    } else {
      assert (a + b)[0] == a[0];
      assert (a + b)[1..] == a[1..] + b;
      CleanLinesAppend(a[1..], b);
      if |a[0]| > 0 && |Words(a[0])| > 0 {
        var w := Words(a[0])[0];
        assert [w] + CleanLines(a[1..]).deleted + CleanLines(b).deleted
            == [w] + (CleanLines(a[1..]).deleted + CleanLines(b).deleted);
      }
    }
  }

  /** One line of the listing: an empty line is skipped, a line of whitespace raises, and any
      other line deletes its first token. With `CleanLinesAppend` this fixes every listing. */
  lemma CleanOneLine(line: string)
    ensures CleanLines([line]) ==
      if |line| == 0 then Cleanup([], false)
      else if |Words(line)| == 0 then Cleanup([], true)
      else Cleanup([Words(line)[0]], false)
  {
    assert [line][1..] == [];
  }

  /** The row nmcli prints for one connection: its UUID, then the rest of the row. */
  ghost predicate ConnectionRow(line: string, uuid: string)
  {
    && IsWord(uuid)
    && |uuid| <= |line| && line[..|uuid|] == uuid
    && (|line| == |uuid| || line[|uuid|] in Whitespace)
  }

  lemma RowUuid(line: string, uuid: string)
    requires ConnectionRow(line, uuid)
    ensures CleanLines([line]) == Cleanup([uuid], false)
  {
    var rest := line[|uuid|..];
    assert line == uuid + rest;
    WordsCons(uuid, rest);
    assert [line][1..] == [];
  }

  /** A listing of connection rows deletes exactly the listed UUIDs, in listing order. */
  lemma {:induction false} CleanDeletesListedUuids(lines: seq<string>, uuids: seq<string>)
    requires |lines| == |uuids|
    requires forall k :: 0 <= k < |lines| ==> ConnectionRow(lines[k], uuids[k])
    ensures CleanLines(lines) == Cleanup(uuids, false)
    decreases |lines|
  {
    if |lines| > 0 {
      RowUuid(lines[0], uuids[0]);
      CleanDeletesListedUuids(lines[1..], uuids[1..]);
      assert lines == [lines[0]] + lines[1..];
      CleanLinesAppend([lines[0]], lines[1..]);
      assert uuids == [uuids[0]] + uuids[1..];
    }
  }

  /** The commands `_clean(partial)` issues: the listing, then one deletion per UUID found. */
  function CleanCommands(partial: string, c: Cleanup): (cmds: seq<Command>)
    ensures |cmds| == |c.deleted| + 1 && cmds[0] == ListConnections(partial)
    ensures forall k :: 0 <= k < |c.deleted| ==> cmds[k + 1] == DeleteConnection(c.deleted[k])
  {
    [ListConnections(partial)] + Map(uuid => DeleteConnection(uuid), c.deleted)
  }

  /** `connect`: clean up after the previous SSID, if there is one, then connect and read the
      response. A raise inside the cleanup leaves the driver as it was and issues no connect. */
  function Connect(d: Driver, ssid: string, password: string, run: Runner): (r: Run<Reply<bool, Driver>>)
    ensures d.currentSsid.None? ==> r.issued == [WifiConnect(ssid, password)]
    ensures r.outcome.Ok? ==>
      && |r.issued| > 0 && r.issued[|r.issued| - 1] == WifiConnect(ssid, password)
      && (r.outcome.value.value <==> !ErrorInResponse(run(WifiConnect(ssid, password))))
    ensures r.outcome.Err? ==> r.outcome.error == ConnectionLineBlank && d.currentSsid.Some?
  {
    var cleanup :=
      match d.currentSsid
      case None => Run(Ok(()), [])
      case Some(previous) =>
        var c := Clean(run(ListConnections(previous)));
        Run(if c.raised then Err(ConnectionLineBlank) else Ok(()), CleanCommands(previous, c));
    if cleanup.outcome.Err? then
      Run(Err(ConnectionLineBlank), cleanup.issued)
    else
      var connect := WifiConnect(ssid, password);
      var response := run(connect);
      var issued := cleanup.issued + [connect];
      if ErrorInResponse(response) then Run(Ok(Reply(false, Driver(None))), issued)
      else Run(Ok(Reply(true, Driver(Some(ssid)))), issued)
  }

  /** `current`: the SSID of the last successful connect, with no command issued. */
  function Current(d: Driver): (r: Option<string>)
  {
    d.currentSsid
  }

  /** After a connect that returns, `current` reports the requested SSID exactly when the
      connect returned true, and `None` otherwise. */
  lemma ConnectThenCurrent(d: Driver, ssid: string, password: string, run: Runner)
    requires Connect(d, ssid, password, run).outcome.Ok?
    ensures var reply := Connect(d, ssid, password, run).outcome.value;
      Current(reply.next) == (if reply.value then Some(ssid) else None)
  {
  }

  /** With a previous SSID, connect first lists the connections matching it and deletes each
      UUID found; the deletions come before the connect command. */
  lemma ConnectCleansPrevious(d: Driver, ssid: string, password: string, run: Runner)
    requires d.currentSsid.Some?
    ensures var c := Clean(run(ListConnections(d.currentSsid.value)));
      var issued := Connect(d, ssid, password, run).issued;
      && issued[..|c.deleted| + 1] == CleanCommands(d.currentSsid.value, c)
      && (c.raised <==> Connect(d, ssid, password, run).outcome.Err?)
      && (!c.raised ==> issued == CleanCommands(d.currentSsid.value, c) + [WifiConnect(ssid, password)])
  {
    var c := Clean(run(ListConnections(d.currentSsid.value)));
    var cmds := CleanCommands(d.currentSsid.value, c);
    assert (cmds + [WifiConnect(ssid, password)])[..|c.deleted| + 1] == cmds;
  }

  /** End to end: when the listing for the previous SSID is a block of connection rows, connect
      lists them, deletes each listed UUID in order, then issues the connect command. */
  lemma ConnectDeletesListedRows(d: Driver, ssid: string, password: string, run: Runner,
                                 rows: seq<string>, uuids: seq<string>)
    requires d.currentSsid.Some?
    requires run(ListConnections(d.currentSsid.value)) == JoinLines(rows)
    requires |rows| == |uuids|
    requires forall k :: 0 <= k < |rows| ==> ConnectionRow(rows[k], uuids[k]) && Free(rows[k], LineBreaks)
    ensures var issued := Connect(d, ssid, password, run).issued;
      && Connect(d, ssid, password, run).outcome.Ok?
      && |issued| == |uuids| + 2
      && issued[0] == ListConnections(d.currentSsid.value)
      && (forall k :: 0 <= k < |uuids| ==> issued[k + 1] == DeleteConnection(uuids[k]))
      && issued[|uuids| + 1] == WifiConnect(ssid, password)
  {
    LinesOfJoinLines(rows);
    CleanDeletesListedUuids(rows, uuids);
    ConnectCleansPrevious(d, ssid, password, run);
  }

  /** A failed connect forgets the SSID, so the connect after it skips the cleanup and its
      result depends only on its own response. */
  lemma NoCleanupAfterFailure(d: Driver, s1: string, p1: string, run1: Runner, s2: string, p2: string, run2: Runner)
    requires Connect(d, s1, p1, run1).outcome.Ok? && !Connect(d, s1, p1, run1).outcome.value.value
    ensures Connect(Connect(d, s1, p1, run1).outcome.value.next, s2, p2, run2).issued == [WifiConnect(s2, p2)]
  {
  }

  /** A successful connect makes the next connect clean up the connections matching its SSID. */
  lemma CleanupAfterSuccess(d: Driver, s1: string, p1: string, run1: Runner, s2: string, p2: string, run2: Runner)
    requires Connect(d, s1, p1, run1).outcome.Ok? && Connect(d, s1, p1, run1).outcome.value.value
    ensures Connect(Connect(d, s1, p1, run1).outcome.value.next, s2, p2, run2).issued[0] == ListConnections(s1)
  {
  }
}

=== FILE: scan_table.dfy ===
/** The scan-table splitter of wireless/utils.py: a row of whitespace-separated columns whose
    first six columns are single tokens and whose seventh, the security column, may hold
    several; and the table parser that turns each row into a header-to-value map. */
module ScanTable {
  import opened Basics
  import opened Text

  /** The number of single-token columns before the security column. */
  const FixedColumns := 6

  /** `_combine_wifi_security_info`: the first six tokens of `line`, then the remaining tokens
      joined with single spaces as one last column. */
  function CombineSecurityInfo(line: string): (cols: seq<string>)
    ensures |cols| == Min(|Words(line)|, FixedColumns) + 1
    ensures forall k :: 0 <= k < |cols| - 1 ==> cols[k] == Words(line)[k]
    ensures |Words(line)| <= FixedColumns ==> cols[|cols| - 1] == ""
    ensures Join(" ", Words(cols[|cols| - 1])) == cols[|cols| - 1]
  {
    var ws := Words(line);
    var k := Min(|ws|, FixedColumns);
    WordsOfJoin(ws[k..]);
    ws[..k] + [Join(" ", ws[k..])]
  }

  /** The security column splits back into exactly the tokens after the sixth. */
  lemma SecurityColumnTokens(line: string)
    ensures var cols := CombineSecurityInfo(line);
      Words(cols[|cols| - 1]) == Words(line)[Min(|Words(line)|, FixedColumns)..]
  {
    var ws := Words(line);
    WordsOfJoin(ws[Min(|ws|, FixedColumns)..]);
  }

  /** A row printed as single-space-separated tokens splits into those tokens, with everything
      after the sixth gathered into the security column. */
  lemma CombineOfRow(tokens: seq<string>)
    requires forall k :: 0 <= k < |tokens| ==> IsWord(tokens[k])
    ensures |tokens| >= FixedColumns ==>
      CombineSecurityInfo(Join(" ", tokens)) == tokens[..FixedColumns] + [Join(" ", tokens[FixedColumns..])]
    ensures |tokens| < FixedColumns ==> CombineSecurityInfo(Join(" ", tokens)) == tokens + [""]
  {
    WordsOfJoin(tokens);
    if |tokens| < FixedColumns {
      assert tokens[|tokens|..] == [];
      assert tokens[..|tokens|] == tokens;
    }
  }

  /** `keys[i]` is not repeated later among the first `n` keys. */
  ghost predicate LastAmong(keys: seq<string>, n: nat, i: nat)
    requires i < n <= |keys|
  {
    forall j :: i < j < n ==> keys[j] != keys[i]
  }

  /** `dict(zip(keys[:n], vals[:n]))`: pairs inserted in order, so a later key overwrites. */
  function ZipPrefix(keys: seq<string>, vals: seq<string>, n: nat): (m: map<string, string>)
    requires n <= |keys| && n <= |vals|
    ensures m.Keys == set i | 0 <= i < n :: keys[i]
    ensures forall i :: 0 <= i < n && LastAmong(keys, n, i) ==> keys[i] in m && m[keys[i]] == vals[i]
    decreases n
  {
    if n == 0 then map[]
    else
      var prev := ZipPrefix(keys, vals, n - 1);
      ZipStep(keys, vals, n, prev);
      prev[keys[n - 1] := vals[n - 1]]
  }

  /** Inserting the `n`-th pair into the map of the first `n - 1` pairs. */
  lemma ZipStep(keys: seq<string>, vals: seq<string>, n: nat, prev: map<string, string>)
    requires 0 < n <= |keys| && n <= |vals|
    requires prev.Keys == set i | 0 <= i < n - 1 :: keys[i]
    requires forall i :: 0 <= i < n - 1 && LastAmong(keys, n - 1, i) ==> keys[i] in prev && prev[keys[i]] == vals[i]
    ensures prev[keys[n - 1] := vals[n - 1]].Keys == set i | 0 <= i < n :: keys[i]
    ensures forall i :: 0 <= i < n && LastAmong(keys, n, i) ==>
      keys[i] in prev[keys[n - 1] := vals[n - 1]] && prev[keys[n - 1] := vals[n - 1]][keys[i]] == vals[i]
  {
    var m := prev[keys[n - 1] := vals[n - 1]];
    assert (set i | 0 <= i < n :: keys[i]) == (set i | 0 <= i < n - 1 :: keys[i]) + {keys[n - 1]};
    forall i | 0 <= i < n && LastAmong(keys, n, i) ensures keys[i] in m && m[keys[i]] == vals[i] {
      if i < n - 1 {
        assert keys[n - 1] != keys[i];
        assert LastAmong(keys, n - 1, i);
      }
    }
  }

  /** `dict(zip(keys, vals))`: `zip` stops at the shorter sequence and a repeated key keeps
      the value of its last position. */
  function ZipToMap(keys: seq<string>, vals: seq<string>): (m: map<string, string>)
    ensures m.Keys == set i | 0 <= i < Min(|keys|, |vals|) :: keys[i]
    ensures forall i :: 0 <= i < Min(|keys|, |vals|) && LastAmong(keys, Min(|keys|, |vals|), i) ==>
      keys[i] in m && m[keys[i]] == vals[i]
  {
    ZipPrefix(keys, vals, Min(|keys|, |vals|))
  }

  /** The header row, split by the same rule as the data rows. */
  function HeaderColumns(response: string): (cols: seq<string>)
  {
    CombineSecurityInfo(SplitOn(response, '\n')[0])
  }

  /** The map of one data row: the header columns zipped with the row's columns. It binds the
      first header column, and only header columns. */
  function RowMap(headers: seq<string>, segment: string): (m: map<string, string>)
    ensures |headers| > 0 ==> headers[0] in m
    ensures forall k :: k in m ==> exists j :: 0 <= j < |headers| && headers[j] == k
  {
    var cols := CombineSecurityInfo(segment);
    assert |cols| >= 1;
    ZipToMap(headers, cols)
  }

  /** `cleanse_mac_wifi_scan_res`: one map per "\n"-separated segment after the first. */
  function CleanseScanResult(response: string): (rows: seq<map<string, string>>)
    ensures |rows| == multiset(response)['\n']
    ensures forall i :: 0 <= i < |rows| ==> HeaderColumns(response)[0] in rows[i]
    ensures forall i, k :: 0 <= i < |rows| && k in rows[i] ==> exists j :: 0 <= j < |HeaderColumns(response)| && HeaderColumns(response)[j] == k
  {
    var segments := SplitOn(response, '\n');
    var headers := CombineSecurityInfo(segments[0]);
    SplitOnCount(response, '\n');
    seq(|segments| - 1, i requires 0 <= i < |segments| - 1 => RowMap(headers, segments[i + 1]))
  }

  /** A table printed as a header line and "\n"-separated row lines gives one map per row,
      each zipping the header columns with that row's columns. */
  lemma CleanseOfTable(header: string, rows: seq<string>)
    requires Free(header, {'\n'})
    requires forall k :: 0 <= k < |rows| ==> Free(rows[k], {'\n'})
    ensures var result := CleanseScanResult(Join("\n", [header] + rows));
      && |result| == |rows|
      && forall i :: 0 <= i < |rows| ==>
           result[i] == ZipToMap(CombineSecurityInfo(header), CombineSecurityInfo(rows[i]))
  {
    var parts := [header] + rows;
    assert forall k :: 0 <= k < |parts| ==> Free(parts[k], {'\n'});
    SplitOfJoin(parts, '\n');
    var result := CleanseScanResult(Join("\n", parts));
    forall i | 0 <= i < |rows|
      ensures result[i] == ZipToMap(CombineSecurityInfo(header), CombineSecurityInfo(rows[i]))
    {
      assert parts[i + 1] == rows[i];
      assert result[i] == RowMap(CombineSecurityInfo(header), rows[i]);
    }
  }

  /** A response ending in "\n" ends with the row of the empty last segment, which binds only
      the first header column, to the empty string. */
  lemma TrailingNewlineRow(response: string)
    requires |response| > 0 && response[|response| - 1] == '\n'
    ensures var rows := CleanseScanResult(response);
      |rows| > 0 && rows[|rows| - 1] == map[HeaderColumns(response)[0] := ""]
  {
    var segments := SplitOn(response, '\n');
    LastPieceIsSuffix(response, '\n');
    SplitOnCount(response, '\n');
    var last := segments[|segments| - 1];
    assert |last| == 0;
    var headers := HeaderColumns(response);
    EmptyRowMap(headers, last);
    var rows := CleanseScanResult(response);
    assert rows[|rows| - 1] == RowMap(headers, last);
  }

  /** The empty segment binds only the first header column, to the empty string. */
  lemma EmptyRowMap(headers: seq<string>, segment: string)
    requires |headers| > 0 && |segment| == 0
    ensures RowMap(headers, segment) == map[headers[0] := ""]
  {
    assert CombineSecurityInfo(segment) == [""];
    assert ZipToMap(headers, [""]) == ZipPrefix(headers, [""], 1);
  }

  /** The elements of `cols` are pairwise distinct. */
  ghost predicate Distinct(cols: seq<string>)
  {
    forall i, j :: 0 <= i < j < |cols| ==> cols[i] != cols[j]
  }

  /** Zipping distinct keys with as many values binds every key to the value at its position. */
  lemma ZipDistinct(keys: seq<string>, vals: seq<string>)
    requires |keys| == |vals| && Distinct(keys)
    ensures forall k :: 0 <= k < |keys| ==> keys[k] in ZipToMap(keys, vals) && ZipToMap(keys, vals)[keys[k]] == vals[k]
  {
    forall i | 0 <= i < |keys| ensures LastAmong(keys, |keys|, i) { }
  }

  /** End to end: with a header of at least six tokens whose combined columns are distinct, a
      row of at least six tokens maps each header column to the row's column at the same place,
      and the security header to the row's remaining tokens joined with single spaces. */
  lemma ScanRowFields(headerTokens: seq<string>, rowTokens: seq<string>)
    requires |headerTokens| >= FixedColumns && |rowTokens| >= FixedColumns
    requires forall k :: 0 <= k < |headerTokens| ==> IsWord(headerTokens[k])
    requires forall k :: 0 <= k < |rowTokens| ==> IsWord(rowTokens[k])
    requires Distinct(CombineSecurityInfo(Join(" ", headerTokens)))
    ensures var rows := CleanseScanResult(Join(" ", headerTokens) + "\n" + Join(" ", rowTokens));
      var hs := CombineSecurityInfo(Join(" ", headerTokens));
      && |rows| == 1
      && |hs| == FixedColumns + 1
      && (forall k :: 0 <= k < FixedColumns ==> hs[k] in rows[0] && rows[0][hs[k]] == rowTokens[k])
      && hs[FixedColumns] in rows[0]
      && rows[0][hs[FixedColumns]] == Join(" ", rowTokens[FixedColumns..])
  {
    var h := Join(" ", headerTokens);
    var r := Join(" ", rowTokens);
    WordsJoinFree(headerTokens);
    WordsJoinFree(rowTokens);
    SingleRowTable(h, r);
    CombineOfRow(headerTokens);
    CombineOfRow(rowTokens);
    ZipFields(CombineSecurityInfo(h), CombineSecurityInfo(r), rowTokens);
  }

  /** Distinct header columns zipped with a row's six tokens and its joined rest. */
  lemma ZipFields(hs: seq<string>, cs: seq<string>, rowTokens: seq<string>)
    requires |rowTokens| >= FixedColumns && |hs| == FixedColumns + 1 && Distinct(hs)
    requires cs == rowTokens[..FixedColumns] + [Join(" ", rowTokens[FixedColumns..])]
    ensures forall k :: 0 <= k < FixedColumns ==> hs[k] in ZipToMap(hs, cs) && ZipToMap(hs, cs)[hs[k]] == rowTokens[k]
    ensures hs[FixedColumns] in ZipToMap(hs, cs) && ZipToMap(hs, cs)[hs[FixedColumns]] == Join(" ", rowTokens[FixedColumns..])
  {
    ZipDistinct(hs, cs);
  }

  /** A header line and one row line give the single map zipping their columns. */
  lemma SingleRowTable(h: string, r: string)
    requires Free(h, {'\n'}) && Free(r, {'\n'})
    ensures CleanseScanResult(h + "\n" + r) == [ZipToMap(CombineSecurityInfo(h), CombineSecurityInfo(r))]
  {
    assert Join("\n", [h] + [r]) == h + "\n" + r;
    CleanseOfTable(h, [r]);
  }

  lemma WordsJoinFree(tokens: seq<string>)
    requires forall k :: 0 <= k < |tokens| ==> IsWord(tokens[k])
    ensures Free(Join(" ", tokens), {'\n'})
  {
    forall k | 0 <= k < |tokens| ensures Free(tokens[k], {'\n'}) {
      assert IsWord(tokens[k]);
    }
    JoinFree(" ", tokens, {'\n'});
  }
}

=== FILE: shell.dfy ===
/** The boundary to the command runner `cmd` of wireless/Wireless.py: the commands the
    drivers issue, the runner as a function from command to captured output, and the shape
    of a driver operation's result. */
module Shell {
  import opened Basics

  /** The shell commands the core issues, without their textual syntax. */
  datatype Command =
    | WhichNmcli                                         // which nmcli
    | WhichNetworksetup                                  // which networksetup
    | ListConnections(partial: string)                   // nmcli --fields UUID,NAME con list | grep <partial>
    | DeleteConnection(uuid: string)                     // nmcli con delete uuid <uuid>
    | WifiConnect(ssid: string, password: string)        // nmcli dev wifi connect <ssid> password <password>
    | ListAllHardwarePorts                               // networksetup -listallhardwareports
    | SetAirportNetwork(device: string, ssid: string, password: string)
                                                         // networksetup -setairportnetwork <device> <ssid> <password>

  /** The runner: the combined stdout and stderr text a command prints. */
  type Runner = Command -> string

  /** The exceptions the core raises. */
  datatype Error =
    | NoCompatibleApi         // 'Cannot find compatible wireless API.'
    | InterfaceNotDetected    // 'Unabled to auto-detect the network interface.'
    | ConnectionLineBlank     // IndexError from `line.split()[0]` on a whitespace-only line

  /** What a driver call returns, and the driver state after it. */
  datatype Reply<+T, +S> = Reply(value: T, next: S)

  /** The outcome of an operation together with the commands it issued, in order. */
  datatype Run<+T> = Run(outcome: Result<T, Error>, issued: seq<Command>)
}

=== FILE: text.dfy ===
/** The Python 2 byte-string operations the parsers rely on: `split()`, `split(sep)`,
    `splitlines()`, `strip(chars)`, `startswith`, `in` and `replace(pat, '')`. */
module Text {
  import opened Basics

  /** The characters Python 2's `str.split()` and `str.strip()` treat as whitespace. */
  const Whitespace: set<char> := {' ', '\t', '\n', '\r', '\U{000B}', '\U{000C}'}

  /** The line boundaries of Python 2's `str.splitlines()`: "\n", "\r" and "\r\n". */
  const LineBreaks: set<char> := {'\n', '\r'}

  /** No character of `s` is in `cs`. */
  predicate Free(s: string, cs: set<char>)
  {
    forall k :: 0 <= k < |s| ==> s[k] !in cs
  }

  /** Every character of `s` is in `cs`. */
  predicate Only(s: string, cs: set<char>)
  {
    forall k :: 0 <= k < |s| ==> s[k] in cs
  }

  /** Neither end of `s` is a character of `cs`. */
  predicate IsStripped(s: string, cs: set<char>)
  {
    |s| == 0 || (s[0] !in cs && s[|s| - 1] !in cs)
  }

  /** A token of `str.split()`: non-empty and whitespace-free. */
  predicate IsWord(w: string)
  {
    |w| > 0 && Free(w, Whitespace)
  }

  /** The position of the first character of `s` that is in `cs`, or `|s|` when there is none. */
  function FirstIndexIn(s: string, cs: set<char>): (i: nat)
    ensures i <= |s|
    ensures Free(s[..i], cs)
    ensures i < |s| ==> s[i] in cs
    decreases |s|
  {
    if |s| == 0 || s[0] in cs then 0
    else
      var j := FirstIndexIn(s[1..], cs);
      assert s[..1 + j] == [s[0]] + s[1..][..j];
      1 + j
  }

  lemma {:induction false} FirstIndexInConcat(a: string, b: string, cs: set<char>)
    requires Free(a, cs)
    ensures FirstIndexIn(a + b, cs) == |a| + FirstIndexIn(b, cs)
    decreases |a|
  {
    if |a| > 0 {
      assert (a + b)[1..] == a[1..] + b;
      FirstIndexInConcat(a[1..], b, cs);
    } else {
      assert a + b == b;
    }
  }

  lemma FreeConcat(a: string, b: string, cs: set<char>)
    requires Free(a, cs) && Free(b, cs)
    ensures Free(a + b, cs)
  {
    forall k | 0 <= k < |a + b| ensures (a + b)[k] !in cs {
      if k >= |a| {
        assert (a + b)[k] == b[k - |a|];
      }
    }
  }

  predicate StartsWith(s: string, prefix: string)
  {
    |prefix| <= |s| && s[..|prefix|] == prefix
  }

  /** `sub` occurs in `s` starting at position `i`. */
  ghost predicate OccursAt(s: string, sub: string, i: nat)
  {
    i + |sub| <= |s| && s[i..i + |sub|] == sub
  }

  /** Python's `sub in s`. */
  predicate Contains(s: string, sub: string)
    decreases |s|
  {
    StartsWith(s, sub) || (|s| > 0 && Contains(s[1..], sub))
  }

  /** `sub in s` holds exactly when `sub` occurs at some position of `s`. */
  lemma {:induction false} ContainsIff(s: string, sub: string)
    ensures Contains(s, sub) <==> exists i :: 0 <= i <= |s| && OccursAt(s, sub, i)
    decreases |s|
  {
    if StartsWith(s, sub) {
      assert OccursAt(s, sub, 0);
    } else if |s| > 0 {
      ContainsIff(s[1..], sub);
      if Contains(s[1..], sub) {
        var i :| 0 <= i <= |s[1..]| && OccursAt(s[1..], sub, i);
        assert s[1..][i..i + |sub|] == s[i + 1..i + 1 + |sub|];
        assert OccursAt(s, sub, i + 1);
      } else {
        forall i | 1 <= i <= |s| && OccursAt(s, sub, i)
          ensures OccursAt(s[1..], sub, i - 1)
        {
          assert s[1..][i - 1..i - 1 + |sub|] == s[i..i + |sub|];
        }
      }
    }
  }

  /** An occurrence at a known position makes `sub in s` true. */
  lemma ContainsAt(s: string, sub: string, i: nat)
    requires OccursAt(s, sub, i)
    ensures Contains(s, sub)
  {
    ContainsIff(s, sub);
  }

  /** Python's `sep.join(parts)`. */
  function Join(sep: string, parts: seq<string>): (r: string)
    decreases |parts|
  {
    if |parts| == 0 then ""
    else if |parts| == 1 then parts[0]
    else parts[0] + sep + Join(sep, parts[1..])
  }

  /** A join of pieces and a separator that avoid `cs` avoids `cs`. */
  lemma {:induction false} JoinFree(sep: string, parts: seq<string>, cs: set<char>)
    requires Free(sep, cs)
    requires forall k :: 0 <= k < |parts| ==> Free(parts[k], cs)
    ensures Free(Join(sep, parts), cs)
    decreases |parts|
  {
    if |parts| > 1 {
      JoinFree(sep, parts[1..], cs);
      var a := parts[0] + sep;
      var rest := Join(sep, parts[1..]);
      forall k | 0 <= k < |a + rest|
        ensures (a + rest)[k] !in cs
      {
        if k < |parts[0]| {
          assert (a + rest)[k] == parts[0][k];
        } else if k < |a| {
          assert (a + rest)[k] == sep[k - |parts[0]|];
        } else {
          assert (a + rest)[k] == rest[k - |a|];
        }
      }
    }
  }

  /** Python 2's `s.split()`: the maximal whitespace-free runs of `s`, in order. */
  function Words(s: string): (ws: seq<string>)
    ensures forall k :: 0 <= k < |ws| ==> IsWord(ws[k])
    decreases |s|
  {
    if |s| == 0 then []
    else if s[0] in Whitespace then Words(s[1..])
    else
      var n := FirstIndexIn(s, Whitespace);
      [s[..n]] + Words(s[n..])
  }

  /** A word followed by whitespace, or by nothing, is the first token. */
  lemma WordsCons(w: string, t: string)
    requires IsWord(w)
    requires |t| == 0 || t[0] in Whitespace
    ensures Words(w + t) == [w] + Words(t)
  {
    FirstIndexInConcat(w, t, Whitespace);
    assert (w + t)[..|w|] == w;
    assert (w + t)[|w|..] == t;
  }

  /** Leading whitespace, of any kind and length, yields no token. With `WordsCons` this fixes
      the tokens of every text: runs of whitespace separate tokens and leading or trailing
      whitespace is dropped. */
  lemma {:induction false} WordsSkip(a: string, t: string)
    requires Only(a, Whitespace)
    ensures Words(a + t) == Words(t)
    decreases |a|
  {
    if |a| == 0 {
      assert a + t == t;
    } else {
      assert (a + t)[0] == a[0];
      assert (a + t)[1..] == a[1..] + t;
      WordsSkip(a[1..], t);
    }
  }

  /** Splitting a single-space join of tokens gives the tokens back. */
  lemma {:induction false} WordsOfJoin(ws: seq<string>)
    requires forall k :: 0 <= k < |ws| ==> IsWord(ws[k])
    ensures Words(Join(" ", ws)) == ws
    decreases |ws|
  {
    if |ws| == 1 {
      WordsCons(ws[0], "");
      assert ws[0] + "" == ws[0];
    } else if |ws| > 1 {
      var rest := Join(" ", ws[1..]);
      assert Join(" ", ws) == ws[0] + (" " + rest);
      WordsCons(ws[0], " " + rest);
      assert (" " + rest)[1..] == rest;
      WordsOfJoin(ws[1..]);
    }
  }

  /** Python's `s.split(c)` for a one-character separator. */
  function SplitOn(s: string, c: char): (parts: seq<string>)
    ensures |parts| > 0
    ensures forall k :: 0 <= k < |parts| ==> Free(parts[k], {c})
    decreases |s|
  {
    var i := FirstIndexIn(s, {c});
    if i == |s| then
      assert s[..i] == s;
      [s]
    else
      [s[..i]] + SplitOn(s[i + 1..], c)
  }

  lemma FreeCount(a: string, c: char)
    requires Free(a, {c})
    ensures multiset(a)[c] == 0
  {
    assert c !in a;
  }

  /** A split has one piece more than there are separators. */
  lemma {:induction false} SplitOnCount(s: string, c: char)
    ensures |SplitOn(s, c)| == multiset(s)[c] + 1
    decreases |s|
  {
    var i := FirstIndexIn(s, {c});
    if i == |s| {
      assert s[..i] == s;
      FreeCount(s, c);
    } else {
      SplitOnCount(s[i + 1..], c);
      SplitOnStep(s, c, i);
      Recompose(s, i);
      FreeCount(s[..i], c);
      assert multiset(s) == multiset(s[..i]) + multiset([s[i]]) + multiset(s[i + 1..]);
    }
  }

  lemma JoinCons(sep: string, p: string, rest: seq<string>)
    requires |rest| > 0
    ensures Join(sep, [p] + rest) == p + sep + Join(sep, rest)
  {
    assert ([p] + rest)[1..] == rest;
  }

  lemma {:induction false} JoinOfSplit(s: string, c: char)
    ensures Join([c], SplitOn(s, c)) == s
    decreases |s|
  {
    var i := FirstIndexIn(s, {c});
    if i < |s| {
      var t := s[i + 1..];
      SplitOnStep(s, c, i);
      JoinCons([c], s[..i], SplitOn(t, c));
      JoinOfSplit(t, c);
      Recompose(s, i);
    }
  }

  lemma {:induction false} SplitOnStep(s: string, c: char, i: nat)
    requires i == FirstIndexIn(s, {c}) && i < |s|
    ensures SplitOn(s, c) == [s[..i]] + SplitOn(s[i + 1..], c)
  {
  }

  lemma {:induction false} Recompose(s: string, i: nat)
    requires i < |s|
    ensures s[..i] + [s[i]] + s[i + 1..] == s
  {
  }

  /** Splitting a join of separator-free pieces gives the pieces back. */
  lemma {:induction false} SplitOfJoin(parts: seq<string>, c: char)
    requires |parts| > 0
    requires forall k :: 0 <= k < |parts| ==> Free(parts[k], {c})
    ensures SplitOn(Join([c], parts), c) == parts
    decreases |parts|
  {
    var p := parts[0];
    if |parts| == 1 {
      assert FirstIndexIn(p, {c}) == |p|;
    } else {
      var rest := Join([c], parts[1..]);
      var s := p + [c] + rest;
      assert Join([c], parts) == s;
      FirstIndexInConcat(p, [c] + rest, {c});
      assert s == p + ([c] + rest);
      assert FirstIndexIn(s, {c}) == |p|;
      assert s[..|p|] == p;
      assert s[|p| + 1..] == rest;
      SplitOfJoin(parts[1..], c);
    }
  }

  /** `r` is the suffix of `s` after its last `c`, or all of `s` when `r` reaches back to its start. */
  ghost predicate AfterLast(s: string, r: string, c: char)
  {
    |r| <= |s| && r == s[|s| - |r|..] && (|r| == |s| || s[|s| - |r| - 1] == c)
  }

  /** The last piece of a split is the suffix of `s` after its last `c` (all of `s` when there is none). */
  lemma {:induction false} LastPieceIsSuffix(s: string, c: char)
    ensures AfterLast(s, SplitOn(s, c)[|SplitOn(s, c)| - 1], c)
    decreases |s|
  {
    var i := FirstIndexIn(s, {c});
    if i < |s| {
      var t := s[i + 1..];
      LastPieceIsSuffix(t, c);
      SplitOnStep(s, c, i);
      LastOfCons(s[..i], SplitOn(t, c));
      SuffixOfSuffix(s, i, SplitOn(t, c)[|SplitOn(t, c)| - 1], c);
    } else {
      assert SplitOn(s, c) == [s];
    }
  }

  lemma LastOfCons(p: string, rest: seq<string>)
    requires |rest| > 0
    ensures ([p] + rest)[|rest|] == rest[|rest| - 1]
  {
  }

  lemma SuffixOfSuffix(s: string, i: nat, r: string, c: char)
    requires i < |s| && s[i] == c
    requires AfterLast(s[i + 1..], r, c)
    ensures AfterLast(s, r, c)
  {
    var t := s[i + 1..];
    assert t[|t| - |r|..] == s[|s| - |r|..];
    if |r| < |t| {
      assert s[|s| - |r| - 1] == t[|t| - |r| - 1];
    }
  }

  /** Python's `s.split(c)[-1]`: the text after the last `c`. */
  function LastField(s: string, c: char): (r: string)
    ensures Free(r, {c})
    ensures |r| <= |s| && r == s[|s| - |r|..]
    ensures |r| == |s| || s[|s| - |r| - 1] == c
  {
    LastPieceIsSuffix(s, c);
    var p := SplitOn(s, c);
    p[|p| - 1]
  }

  lemma LastFieldAfter(a: string, b: string, c: char)
    requires Free(b, {c})
    ensures LastField(a + [c] + b, c) == b
  {
    var s := a + [c] + b;
    var r := LastField(s, c);
    assert s[|a|] == c;
    assert forall k :: |s| - |b| <= k < |s| ==> s[k] == b[k - |s| + |b|];
    assert |r| == |b|;
    assert s[|s| - |b|..] == b;
  }

  /** Python 2's `s.splitlines()`: lines end at "\n", "\r" or "\r\n"; a final line break
      does not start another line. */
  function Lines(s: string): (ls: seq<string>)
    ensures forall k :: 0 <= k < |ls| ==> Free(ls[k], LineBreaks)
    ensures |ls| == 0 <==> |s| == 0
    decreases |s|
  {
    if |s| == 0 then []
    else
      var i := FirstIndexIn(s, LineBreaks);
      if i == |s| then
        assert s[..i] == s;
        [s]
      else
        var next := if s[i] == '\r' && i + 1 < |s| && s[i + 1] == '\n' then i + 2 else i + 1;
        [s[..i]] + Lines(s[next..])
  }

  /** No line holds `marker`. */
  ghost predicate NoLineContains(lines: seq<string>, marker: string)
  {
    forall k :: 0 <= k < |lines| ==> !Contains(lines[k], marker)
  }

  /** `k` is the first line that holds `marker`. */
  ghost predicate FirstLineContaining(lines: seq<string>, marker: string, k: nat)
  {
    && k < |lines|
    && Contains(lines[k], marker)
    && NoLineContains(lines[..k], marker)
  }

  /** The position of the first line that holds `marker`, if any. */
  function FindLine(lines: seq<string>, marker: string): (r: Option<nat>)
    ensures r.None? <==> NoLineContains(lines, marker)
    ensures r.Some? ==> FirstLineContaining(lines, marker, r.value)
    decreases |lines|
  {
    if |lines| == 0 then None
    else if Contains(lines[0], marker) then
      assert lines[..0] == [];
      Some(0)
    else
      var r := FindLine(lines[1..], marker);
      DropUnmarkedLine(lines, marker);
      if r.Some? then
        FirstAfterUnmarked(lines, marker, r.value);
        Some(r.value + 1)
      else
        None
  }

  lemma DropUnmarkedLine(lines: seq<string>, marker: string)
    requires |lines| > 0 && !Contains(lines[0], marker)
    ensures NoLineContains(lines, marker) <==> NoLineContains(lines[1..], marker)
  {
    assert forall k :: 1 <= k < |lines| ==> lines[k] == lines[1..][k - 1];
  }

  lemma FirstAfterUnmarked(lines: seq<string>, marker: string, k: nat)
    requires |lines| > 0 && !Contains(lines[0], marker)
    requires FirstLineContaining(lines[1..], marker, k)
    ensures FirstLineContaining(lines, marker, k + 1)
  {
    var pre := lines[..k + 1];
    assert pre == [lines[0]] + lines[1..][..k];
    forall j | 0 <= j < |pre| ensures !Contains(pre[j], marker) {
      if j > 0 {
        assert pre[j] == lines[1..][..k][j - 1];
      }
    }
  }

  /** The lines that hold `marker`, in order. */
  function LinesContaining(lines: seq<string>, marker: string): (r: seq<string>)
    ensures |r| <= |lines|
    ensures forall k :: 0 <= k < |r| ==> Contains(r[k], marker)
    ensures |r| == 0 <==> NoLineContains(lines, marker)
    decreases |lines|
  {
    if |lines| == 0 then []
    else
      var rest := LinesContaining(lines[1..], marker);
      if Contains(lines[0], marker) then [lines[0]] + rest
      else
        DropUnmarkedLine(lines, marker);
        rest
  }

  /** Selection distributes over concatenation, so line order is kept. */
  lemma {:induction false} LinesContainingAppend(a: seq<string>, b: seq<string>, marker: string)
    ensures LinesContaining(a + b, marker) == LinesContaining(a, marker) + LinesContaining(b, marker)
    decreases |a|
  {
    if |a| > 0 {
      assert (a + b)[0] == a[0];
      assert (a + b)[1..] == a[1..] + b;
      LinesContainingAppend(a[1..], b, marker);
    } else {
      assert a + b == b;
    }
  }

  /** Lines that all hold the marker are all selected. */
  lemma {:induction false} LinesContainingAll(lines: seq<string>, marker: string)
    requires forall k :: 0 <= k < |lines| ==> Contains(lines[k], marker)
    ensures LinesContaining(lines, marker) == lines
    decreases |lines|
  {
    if |lines| > 0 {
      LinesContainingAll(lines[1..], marker);
    }
  }

  /** Lines before the first marked one are skipped by `FindLine`. */
  lemma {:induction false} FindLineSkips(pre: seq<string>, rest: seq<string>, marker: string)
    requires NoLineContains(pre, marker)
    requires FindLine(rest, marker).Some?
    ensures FindLine(pre + rest, marker) == Some(|pre| + FindLine(rest, marker).value)
    decreases |pre|
  {
    if |pre| > 0 {
      assert (pre + rest)[0] == pre[0];
      assert (pre + rest)[1..] == pre[1..] + rest;
      DropUnmarkedLine(pre, marker);
      FindLineSkips(pre[1..], rest, marker);
    } else {
      assert pre + rest == rest;
    }
  }

  lemma FindLineAt(pre: seq<string>, line: string, post: seq<string>, marker: string)
    requires NoLineContains(pre, marker)
    requires Contains(line, marker)
    ensures FindLine(pre + [line] + post, marker) == Some(|pre|)
    ensures (pre + [line] + post)[|pre|] == line
  {
    assert ([line] + post)[0] == line;
    assert FindLine([line] + post, marker) == Some(0);
    assert pre + [line] + post == pre + ([line] + post);
    FindLineSkips(pre, [line] + post, marker);
  }

  /** `f` applied to each element, in order. */
  function Map<A, B>(f: A -> B, xs: seq<A>): (ys: seq<B>)
    ensures |ys| == |xs|
    ensures forall k :: 0 <= k < |xs| ==> ys[k] == f(xs[k])
  {
    seq(|xs|, i requires 0 <= i < |xs| => f(xs[i]))
  }

  lemma MapAppend<A, B>(f: A -> B, a: seq<A>, b: seq<A>)
    ensures Map(f, a + b) == Map(f, a) + Map(f, b)
  {
    var l := Map(f, a + b);
    var r := Map(f, a) + Map(f, b);
    forall k | 0 <= k < |l| ensures l[k] == r[k] {
      if k < |a| {
        assert (a + b)[k] == a[k];
      } else {
        assert (a + b)[k] == b[k - |a|];
      }
    }
  }

  /** Text made of `ls`, each line terminated by "\n". */
  function JoinLines(ls: seq<string>): (r: string)
    decreases |ls|
  {
    if |ls| == 0 then "" else ls[0] + "\n" + JoinLines(ls[1..])
  }

  /** A line ended by "\n" is the first line. With `LinesCrLf`, `LinesCr` and `LinesLast`
      this fixes the lines of every text. */
  lemma LinesCons(l: string, t: string)
    requires Free(l, LineBreaks)
    ensures Lines(l + "\n" + t) == [l] + Lines(t)
  {
    var s := l + "\n" + t;
    FirstIndexInConcat(l, "\n" + t, LineBreaks);
    assert s == l + ("\n" + t);
    assert FirstIndexIn(s, LineBreaks) == |l|;
    assert s[..|l|] == l;
    assert s[|l| + 1..] == t;
  }

  /** A line ended by "\r\n" is the first line: the pair is one break. */
  lemma LinesCrLf(l: string, t: string)
    requires Free(l, LineBreaks)
    ensures Lines(l + "\r\n" + t) == [l] + Lines(t)
  {
    var s := l + "\r\n" + t;
    FirstIndexInConcat(l, "\r\n" + t, LineBreaks);
    assert s == l + ("\r\n" + t);
    assert FirstIndexIn(s, LineBreaks) == |l|;
    assert s[|l|] == '\r' && s[|l| + 1] == '\n';
    assert s[..|l|] == l;
    assert s[|l| + 2..] == t;
  }

  /** A line ended by a "\r" that no "\n" follows is the first line. */
  lemma LinesCr(l: string, t: string)
    requires Free(l, LineBreaks)
    requires |t| == 0 || t[0] != '\n'
    ensures Lines(l + "\r" + t) == [l] + Lines(t)
  {
    var s := l + "\r" + t;
    FirstIndexInConcat(l, "\r" + t, LineBreaks);
    assert s == l + ("\r" + t);
    assert s[..|l|] == l;
    assert s[|l| + 1..] == t;
    LinesBreakAt(s, |l|, |l| + 1);
  }

  /** Unfolds `Lines` at its first break `i`, the break ending just before `next`. */
  lemma LinesBreakAt(s: string, i: nat, next: nat)
    requires i < |s| && FirstIndexIn(s, LineBreaks) == i
    requires next == if s[i] == '\r' && i + 1 < |s| && s[i + 1] == '\n' then i + 2 else i + 1
    ensures Lines(s) == [s[..i]] + Lines(s[next..])
  {
  }

  /** A last line without a break is a line of its own. */
  lemma LinesLast(l: string)
    requires |l| > 0 && Free(l, LineBreaks)
    ensures Lines(l) == [l]
  {
    FirstIndexInConcat(l, "", LineBreaks);
    assert l + "" == l;
  }

  /** Splitting "\n"-terminated lines gives the lines back. */
  lemma {:induction false} LinesOfJoinLines(ls: seq<string>)
    requires forall k :: 0 <= k < |ls| ==> Free(ls[k], LineBreaks)
    ensures Lines(JoinLines(ls)) == ls
    decreases |ls|
  {
    if |ls| > 0 {
      LinesCons(ls[0], JoinLines(ls[1..]));
      LinesOfJoinLines(ls[1..]);
    }
  }

  /** `r` sits at position `i` of `s` and everything around it is in `cs`. */
  ghost predicate Framed(s: string, r: string, cs: set<char>, i: nat)
  {
    && i + |r| <= |s|
    && s[i..i + |r|] == r
    && (forall k :: 0 <= k < i ==> s[k] in cs)
    && (forall k :: i + |r| <= k < |s| ==> s[k] in cs)
  }

  /** Python's `s.lstrip(cs)`. */
  function StripStart(s: string, cs: set<char>): (r: string)
    ensures |r| <= |s| && r == s[|s| - |r|..]
    ensures forall k :: 0 <= k < |s| - |r| ==> s[k] in cs
    ensures |r| == 0 || r[0] !in cs
    decreases |s|
  {
    if |s| > 0 && s[0] in cs then StripStart(s[1..], cs) else s
  }

  /** Python's `s.rstrip(cs)`. */
  function StripEnd(s: string, cs: set<char>): (r: string)
    ensures |r| <= |s| && r == s[..|r|]
    ensures forall k :: |r| <= k < |s| ==> s[k] in cs
    ensures |r| == 0 || r[|r| - 1] !in cs
    decreases |s|
  {
    if |s| > 0 && s[|s| - 1] in cs then StripEnd(s[..|s| - 1], cs) else s
  }

  /** Python's `s.strip(cs)`: the longest run of `s` whose ends are not in `cs`, cut out by
      removing characters of `cs` from both ends. */
  function Strip(s: string, cs: set<char>): (r: string)
    ensures IsStripped(r, cs)
    ensures exists i :: Framed(s, r, cs, i)
  {
    var t := StripStart(s, cs);
    StripFramed(s, t, StripEnd(t, cs), cs);
    StripEnd(t, cs)
  }

  lemma StripFramed(s: string, t: string, r: string, cs: set<char>)
    requires t == StripStart(s, cs) && r == StripEnd(t, cs)
    ensures Framed(s, r, cs, |s| - |t|)
  {
    FramedInSuffix(s, t, r, cs);
  }

  lemma FramedInSuffix(s: string, t: string, r: string, cs: set<char>)
    requires |t| <= |s| && t == s[|s| - |t|..]
    requires forall k :: 0 <= k < |s| - |t| ==> s[k] in cs
    requires |r| <= |t| && r == t[..|r|]
    requires forall k :: |r| <= k < |t| ==> t[k] in cs
    ensures Framed(s, r, cs, |s| - |t|)
  {
    var i := |s| - |t|;
    assert s[i..i + |r|] == s[i..][..|r|];
    forall k | i + |r| <= k < |s|
      ensures s[k] in cs
    {
      assert s[k] == t[k - i];
    }
  }

  lemma {:induction false} StripStartPadded(a: string, t: string, cs: set<char>)
    requires Only(a, cs)
    requires |t| == 0 || t[0] !in cs || Only(t, cs)
    ensures StripStart(a + t, cs) == if Only(t, cs) then "" else t
    decreases |a| + |t|
  {
    if |a| > 0 {
      assert (a + t)[1..] == a[1..] + t;
      StripStartPadded(a[1..], t, cs);
    } else if |t| > 0 && t[0] in cs {
      assert a + t == [] + t;
      assert t[1..] == "" + t[1..];
      StripStartPadded("", t[1..], cs);
    } else {
      assert a + t == t;
    }
  }

  lemma {:induction false} StripEndPadded(t: string, b: string, cs: set<char>)
    requires Only(b, cs)
    requires |t| == 0 || t[|t| - 1] !in cs
    ensures StripEnd(t + b, cs) == t
    decreases |b|
  {
    if |b| > 0 {
      assert (t + b)[..|t + b| - 1] == t + b[..|b| - 1];
      StripEndPadded(t, b[..|b| - 1], cs);
    } else {
      assert t + b == t;
    }
  }

  /** Stripping removes exactly the padding made of `cs` around a stripped text. */
  lemma StripPadded(a: string, t: string, b: string, cs: set<char>)
    requires Only(a, cs) && Only(b, cs)
    requires IsStripped(t, cs)
    ensures Strip(a + t + b, cs) == t
  {
    assert a + t + b == a + (t + b);
    if |t| == 0 {
      assert t + b == b;
      StripStartPadded(a, b, cs);
      assert StripStart(a + t + b, cs) == "";
    } else {
      assert (t + b)[0] == t[0];
      assert !Only(t + b, cs);
      StripStartPadded(a, t + b, cs);
      StripEndPadded(t, b, cs);
    }
  }

  /** A text whose ends are not in `cs` is left unchanged by stripping. */
  lemma StripOfStripped(t: string, cs: set<char>)
    requires IsStripped(t, cs)
    ensures Strip(t, cs) == t
  {
    assert StripStart(t, cs) == t;
    assert StripEnd(t, cs) == t;
  }

  /** Stripping twice is stripping once. */
  lemma StripIdempotent(s: string, cs: set<char>)
    ensures Strip(Strip(s, cs), cs) == Strip(s, cs)
  {
    StripOfStripped(Strip(s, cs), cs);
  }

  /** Python's `s.replace(pat, '')`: occurrences are removed left to right without overlap. */
  function RemoveAll(s: string, pat: string): (r: string)
    requires |pat| > 0
    ensures |r| <= |s|
    ensures !Contains(s, pat) ==> r == s
    ensures Contains(s, pat) ==> |r| + |pat| <= |s|
    decreases |s|
  {
    if StartsWith(s, pat) then RemoveAll(s[|pat|..], pat)
    else if |s| == 0 then ""
    else
      assert s == [s[0]] + s[1..];
      [s[0]] + RemoveAll(s[1..], pat)
  }

  /** The first occurrence is removed and the text before it kept, then the removal goes on in
      the rest: `a` together with all but the last character of `pat` holds no occurrence, so
      `pat` after `a` is the first one. With `!Contains(s, pat) ==> r == s` of `RemoveAll`
      this fixes the result on every text. */
  lemma {:induction false} RemoveFirstOccurrence(a: string, pat: string, b: string)
    requires |pat| > 0
    requires !Contains(a + pat[..|pat| - 1], pat)
    ensures RemoveAll(a + pat + b, pat) == a + RemoveAll(b, pat)
    decreases |a|
  {
    if |a| == 0 {
      RemoveAtFront(pat, b);
      assert a + pat + b == pat + b;
    } else {
      var q := pat[..|pat| - 1];
      var s := a + pat + b;
      NoOccurrenceAtFront(a, pat, b);
      DropFirst(a, q, pat + b);
      assert s == a + (pat + b);
      assert s[0] == a[0] && s[1..] == a[1..] + pat + b;
      ContainsTail(a + q, pat);
      RemoveFirstOccurrence(a[1..], pat, b);
      RemoveAllStep(s, pat);
      assert RemoveAll(s, pat) == [a[0]] + (a[1..] + RemoveAll(b, pat));
      ConsAppend(a, RemoveAll(b, pat));
    }
  }

  /** An occurrence at the front is dropped whole. */
  lemma RemoveAtFront(pat: string, b: string)
    requires |pat| > 0
    ensures RemoveAll(pat + b, pat) == RemoveAll(b, pat)
  {
    assert (pat + b)[..|pat|] == pat;
    assert (pat + b)[|pat|..] == b;
  }

  /** A text that does not start with `pat` keeps its first character. */
  lemma RemoveAllStep(s: string, pat: string)
    requires |pat| > 0 && |s| > 0 && !StartsWith(s, pat)
    ensures RemoveAll(s, pat) == [s[0]] + RemoveAll(s[1..], pat)
  {
  }

  /** Dropping the first character of a concatenation drops it from the left part. */
  lemma DropFirst(a: string, q: string, t: string)
    requires |a| > 0
    ensures (a + t)[0] == a[0] && (a + t)[1..] == a[1..] + t
    ensures (a + q)[1..] == a[1..] + q
  {
  }

  /** A text without an occurrence has none in its tail either. */
  lemma ContainsTail(s: string, sub: string)
    requires |s| > 0 && !Contains(s, sub)
    ensures !Contains(s[1..], sub)
  {
  }

  /** Putting the first character back in front of the rest. */
  lemma ConsAppend(a: string, x: string)
    requires |a| > 0
    ensures [a[0]] + (a[1..] + x) == a + x
  {
    assert a == [a[0]] + a[1..];
  }

  /** Text starting with a non-empty `a` does not start with `pat` when `a` with all but the last
      character of `pat` does not. */
  lemma NoOccurrenceAtFront(a: string, pat: string, b: string)
    requires |pat| > 0 && |a| > 0
    requires !Contains(a + pat[..|pat| - 1], pat)
    ensures !StartsWith(a + pat + b, pat)
  {
    assert (a + pat + b)[..|pat|] == (a + pat[..|pat| - 1])[..|pat|];
  }

  /** A leading occurrence is removed and the text after it is left alone when it holds none. */
  lemma RemoveLeading(pat: string, t: string)
    requires |pat| > 0
    requires !Contains(t, pat)
    ensures RemoveAll(pat + t, pat) == t
  {
    assert StartsWith(pat + t, pat);
    assert (pat + t)[|pat|..] == t;
  }
}

=== FILE: win_profiles.dfy ===
/** The text parsers of wireless/__main__.py for the output of `netsh wlan show profiles`
    and `netsh wlan show profile <name>`. The command output is a parameter. */
module WinProfiles {
  import opened Basics
  import opened Text

  const ProfileMarker := "All User Profile"
  const SsidMarker := "SSID name"

  /** The characters `strip(' "')` removes around the SSID value. */
  const SsidTrim: set<char> := {' ', '"'}

  /** A text framed inside a `cs`-free text is `cs`-free. */
  lemma FramedFree(s: string, r: string, pad: set<char>, cs: set<char>)
    requires Free(s, cs)
    requires exists i :: Framed(s, r, pad, i)
    ensures Free(r, cs)
  {
    var i: nat :| Framed(s, r, pad, i);
    forall k | 0 <= k < |r| ensures r[k] !in cs {
      assert r[k] == s[i + k];
    }
  }

  /** The profile name on a marker line: the text after its last ':' without surrounding whitespace. */
  function ProfileName(line: string): (name: string)
    ensures Free(name, {':'})
    ensures IsStripped(name, Whitespace)
    ensures exists i: nat :: Framed(LastField(line, ':'), name, Whitespace, i)
  {
    var field := LastField(line, ':');
    var name := Strip(field, Whitespace);
    FramedFree(field, name, Whitespace, {':'});
    name
  }

  /** The profile names of the marker lines among `lines`, in order. */
  function SelectProfiles(lines: seq<string>): (names: seq<string>)
    ensures forall k :: 0 <= k < |names| ==> Free(names[k], {':'}) && IsStripped(names[k], Whitespace)
    ensures |names| == 0 <==> NoLineContains(lines, ProfileMarker)
  {
    Map(ProfileName, LinesContaining(lines, ProfileMarker))
  }

  /** `get_win_profiles`, given the output of `netsh wlan show profiles`. */
  function Profiles(output: string): (names: seq<string>)
    ensures forall k :: 0 <= k < |names| ==> Free(names[k], {':'}) && IsStripped(names[k], Whitespace)
    ensures |names| == 0 <==> NoLineContains(Lines(output), ProfileMarker)
  {
    SelectProfiles(Lines(output))
  }

  /** Selection keeps line order: the names of two blocks of lines are the names of the first
      block followed by those of the second. */
  lemma SelectProfilesAppend(a: seq<string>, b: seq<string>)
    ensures SelectProfiles(a + b) == SelectProfiles(a) + SelectProfiles(b)
  {
    LinesContainingAppend(a, b, ProfileMarker);
    MapAppend(ProfileName, LinesContaining(a, ProfileMarker), LinesContaining(b, ProfileMarker));
  }

  /** A single line gives its profile name exactly when it holds the marker; with
      `SelectProfilesAppend` this fixes the names of every listing: one per marker line, in
      line order. */
  lemma SelectProfilesOfLine(line: string)
    ensures SelectProfiles([line]) == if Contains(line, ProfileMarker) then [ProfileName(line)] else []
  {
    assert [line][1..] == [];
  }

  /** The line netsh prints for one user profile. */
  function ProfileLine(name: string): (line: string)
  {
    "    " + ProfileMarker + "     " + ":" + " " + name
  }

  function ProfileLines(names: seq<string>): (ls: seq<string>)
    ensures |ls| == |names|
    ensures forall k :: 0 <= k < |names| ==> ls[k] == ProfileLine(names[k])
  {
    seq(|names|, i requires 0 <= i < |names| => ProfileLine(names[i]))
  }

  /** A name without ':' and without surrounding whitespace, as netsh lists it, is read back
      unchanged. */
  lemma ProfileLineName(name: string)
    requires Free(name, {':'}) && IsStripped(name, Whitespace)
    ensures Contains(ProfileLine(name), ProfileMarker)
    ensures ProfileName(ProfileLine(name)) == name
  {
    var line := ProfileLine(name);
    var head := "    " + ProfileMarker + "     ";
    assert line == head + [':'] + (" " + name);
    assert line[4..4 + |ProfileMarker|] == ProfileMarker;
    ContainsAt(line, ProfileMarker, 4);
    LastFieldAfter(head, " " + name, ':');
    assert " " + name == " " + name + "";
    StripPadded(" ", name, "", Whitespace);
  }

  lemma ProfileLineFree(name: string)
    requires Free(name, LineBreaks)
    ensures Free(ProfileLine(name), LineBreaks)
  {
    var head := "    " + ProfileMarker + "     " + ":" + " ";
    assert Free(head, LineBreaks);
    FreeConcat(head, name, LineBreaks);
  }

  /** Round trip: the listing netsh prints for a sequence of profile names parses back to
      exactly those names, in order. */
  lemma ProfilesOfListing(names: seq<string>)
    requires forall k :: 0 <= k < |names| ==>
      Free(names[k], {':'}) && Free(names[k], LineBreaks) && IsStripped(names[k], Whitespace)
    ensures Profiles(JoinLines(ProfileLines(names))) == names
  {
    var ls := ProfileLines(names);
    forall k | 0 <= k < |ls| ensures Free(ls[k], LineBreaks) && Contains(ls[k], ProfileMarker) {
      ProfileLineFree(names[k]);
      ProfileLineName(names[k]);
    }
    LinesOfJoinLines(ls);
    LinesContainingAll(ls, ProfileMarker);
    forall k | 0 <= k < |names| ensures ProfileName(ls[k]) == names[k] {
      ProfileLineName(names[k]);
    }
  }

  /** The SSID value on a line: the text after its last ':' without surrounding spaces and quotes. */
  function SsidValue(line: string): (v: string)
    ensures Free(v, {':'})
    ensures IsStripped(v, SsidTrim)
    ensures exists i: nat :: Framed(LastField(line, ':'), v, SsidTrim, i)
  {
    var field := LastField(line, ':');
    var v := Strip(field, SsidTrim);
    FramedFree(field, v, SsidTrim, {':'});
    v
  }

  /** The SSID value of the first line among `lines` that holds the SSID marker. */
  function FirstSsid(lines: seq<string>): (r: Option<string>)
    ensures r.None? <==> NoLineContains(lines, SsidMarker)
    ensures r.Some? ==> exists k: nat :: FirstLineContaining(lines, SsidMarker, k) && r.value == SsidValue(lines[k])
    ensures r.Some? ==> Free(r.value, {':'}) && IsStripped(r.value, SsidTrim)
  {
    match FindLine(lines, SsidMarker)
    case None => None
    case Some(k) => Some(SsidValue(lines[k]))
  }

  /** `get_win_profile_ssid`, given the output of `netsh wlan show profile <name>`; `None`
      exactly when no line holds the SSID marker. */
  function ProfileSsid(output: string): (r: Option<string>)
    ensures r.None? <==> NoLineContains(Lines(output), SsidMarker)
    ensures r.Some? ==> exists k: nat ::
      FirstLineContaining(Lines(output), SsidMarker, k) && r.value == SsidValue(Lines(output)[k])
    ensures r.Some? ==> Free(r.value, {':'}) && IsStripped(r.value, SsidTrim)
  {
    FirstSsid(Lines(output))
  }

  /** The line netsh prints for the SSID of a profile. */
  function SsidLine(ssid: string): (line: string)
  {
    "    " + SsidMarker + "              " + ":" + " \"" + ssid + "\""
  }

  /** An SSID without ':' and without surrounding spaces or quotes, as netsh prints it, is read
      back unchanged. */
  lemma SsidLineValue(ssid: string)
    requires Free(ssid, {':'}) && IsStripped(ssid, SsidTrim)
    ensures Contains(SsidLine(ssid), SsidMarker)
    ensures SsidValue(SsidLine(ssid)) == ssid
  {
    var line := SsidLine(ssid);
    var head := "    " + SsidMarker + "              ";
    var tail := " \"" + ssid + "\"";
    assert line == head + [':'] + tail;
    assert line[4..4 + |SsidMarker|] == SsidMarker;
    ContainsAt(line, SsidMarker, 4);
    forall j | 0 <= j < |tail| ensures tail[j] !in {':'} {
      if 2 <= j < 2 + |ssid| {
        assert tail[j] == ssid[j - 2];
      }
    }
    LastFieldAfter(head, tail, ':');
    StripPadded(" \"", ssid, "\"", SsidTrim);
  }

  lemma SsidLineFree(ssid: string)
    requires Free(ssid, LineBreaks)
    ensures Free(SsidLine(ssid), LineBreaks)
  {
    var head := "    " + SsidMarker + "              " + ":" + " \"";
    assert Free(head, LineBreaks);
    FreeConcat(head, ssid, LineBreaks);
    FreeConcat(head + ssid, "\"", LineBreaks);
  }

  /** Round trip: a profile description whose first SSID line carries `ssid` yields `ssid`,
      whatever comes before that line (as long as it holds no SSID marker) and after it. */
  lemma ProfileSsidOfDescription(pre: seq<string>, ssid: string, post: seq<string>)
    requires NoLineContains(pre, SsidMarker)
    requires forall k :: 0 <= k < |pre| ==> Free(pre[k], LineBreaks)
    requires forall k :: 0 <= k < |post| ==> Free(post[k], LineBreaks)
    requires Free(ssid, {':'}) && Free(ssid, LineBreaks) && IsStripped(ssid, SsidTrim)
    ensures ProfileSsid(JoinLines(pre + [SsidLine(ssid)] + post)) == Some(ssid)
  {
    var line := SsidLine(ssid);
    SsidLineFree(ssid);
    SsidLineValue(ssid);
    AllFree(pre, line, post);
    LinesOfJoinLines(pre + [line] + post);
    FirstSsidAfter(pre, line, post);
  }

  lemma AllFree(pre: seq<string>, line: string, post: seq<string>)
    requires forall k :: 0 <= k < |pre| ==> Free(pre[k], LineBreaks)
    requires forall k :: 0 <= k < |post| ==> Free(post[k], LineBreaks)
    requires Free(line, LineBreaks)
    ensures forall k :: 0 <= k < |pre + [line] + post| ==> Free((pre + [line] + post)[k], LineBreaks)
  {
    var ls := pre + [line] + post;
    forall k | 0 <= k < |ls| ensures Free(ls[k], LineBreaks) {
      if k < |pre| { assert ls[k] == pre[k]; }
      else if k == |pre| { assert ls[k] == line; }
      else { assert ls[k] == post[k - |pre| - 1]; }
    }
  }

  lemma FirstSsidAfter(pre: seq<string>, line: string, post: seq<string>)
    requires NoLineContains(pre, SsidMarker)
    requires Contains(line, SsidMarker)
    ensures FirstSsid(pre + [line] + post) == Some(SsidValue(line))
  {
    FindLineAt(pre, line, post, SsidMarker);
  }
}

=== FILE: wireless.dfy ===
/** `Wireless` of wireless/Wireless.py: the facade that picks a driver by probing for the
    command-line tools and forwards `connect` and `current` to it. */
module Wireless {
  import opened Basics
  import opened Text
  import opened Shell
  import Nmcli
  import Networksetup

  /** What `which` prints for a missing tool on some shells. */
  const NotFound := "not found"

  /** The driver names `_detect` returns. */
  datatype DriverName = NmcliName | NetworksetupName

  /** A `which` probe finds the tool when it prints something that does not say "not found". */
  predicate ToolFound(probe: string)
  {
    |probe| > 0 && !Contains(probe, NotFound)
  }

  /** `_detect`: nmcli when `which nmcli` finds it; otherwise networksetup when `which
      networksetup` finds it; otherwise no compatible API. The second probe runs only when the
      first fails. */
  function Detect(run: Runner): (r: Run<DriverName>)
    ensures r.outcome == Ok(NmcliName) <==> ToolFound(run(WhichNmcli))
    ensures r.outcome == Ok(NetworksetupName) <==>
      !ToolFound(run(WhichNmcli)) && ToolFound(run(WhichNetworksetup))
    ensures r.outcome.Err? <==>
      !ToolFound(run(WhichNmcli)) && !ToolFound(run(WhichNetworksetup))
    ensures r.outcome.Err? ==> r.outcome.error == NoCompatibleApi
    ensures r.issued == if ToolFound(run(WhichNmcli)) then [WhichNmcli] else [WhichNmcli, WhichNetworksetup]
  {
    if ToolFound(run(WhichNmcli)) then Run(Ok(NmcliName), [WhichNmcli])
    else if ToolFound(run(WhichNetworksetup)) then Run(Ok(NetworksetupName), [WhichNmcli, WhichNetworksetup])
    else Run(Err(NoCompatibleApi), [WhichNmcli, WhichNetworksetup])
  }

  /** The facade's `_driver`: one of the two drivers with its state. */
  datatype Driver =
    | OnNmcli(nmcli: Nmcli.Driver)
    | OnNetworksetup(networksetup: Networksetup.Driver)

  /** The name `_detect` returns for the driver it selects. */
  function Name(d: Driver): (n: DriverName)
  {
    match d
    case OnNmcli(_) => NmcliName
    case OnNetworksetup(_) => NetworksetupName
  }

  /** `Wireless()`: detect, then construct the named driver; a failure of either step is the
      constructor's failure. The commands are the probes followed by the driver's own. */
  function New(run: Runner): (r: Run<Driver>)
    ensures ToolFound(run(WhichNmcli)) ==> r == Run(Ok(OnNmcli(Nmcli.Fresh)), [WhichNmcli])
    ensures Detect(run).outcome.Err? ==> r == Run(Err(NoCompatibleApi), Detect(run).issued)
    ensures r.outcome.Ok? ==> Detect(run).outcome == Ok(Name(r.outcome.value))
    ensures |Detect(run).issued| <= |r.issued| && r.issued[..|Detect(run).issued|] == Detect(run).issued
  {
    var detect := Detect(run);
    match detect.outcome
    case Err(e) => Run(Err(e), detect.issued)
    case Ok(NmcliName) => Run(Ok(OnNmcli(Nmcli.Fresh)), detect.issued)
    case Ok(NetworksetupName) =>
      var made := Networksetup.New(run);
      var issued := detect.issued + made.issued;
      assert issued[..|detect.issued|] == detect.issued;
      match made.outcome
      case Ok(driver) => Run(Ok(OnNetworksetup(driver)), issued)
      case Err(e) => Run(Err(e), issued)
  }

  /** `connect`: forwarded to the driver, whose state after the call replaces the old one. A
      raise leaves the driver as it was. */
  function Connect(d: Driver, ssid: string, password: string, run: Runner): (r: Run<Reply<bool, Driver>>)
    ensures r.outcome.Ok? ==> Name(r.outcome.value.next) == Name(d)
  {
    match d
    case OnNmcli(n) =>
      var inner := Nmcli.Connect(n, ssid, password, run);
      (match inner.outcome
       case Ok(reply) => Run(Ok(Reply(reply.value, OnNmcli(reply.next))), inner.issued)
       case Err(e) => Run(Err(e), inner.issued))
    case OnNetworksetup(m) =>
      var inner := Networksetup.Connect(m, ssid, password, run);
      match inner.outcome
      case Ok(reply) => Run(Ok(Reply(reply.value, OnNetworksetup(reply.next))), inner.issued)
      case Err(e) => Run(Err(e), inner.issued)
  }

  /** `current`: forwarded to the driver. */
  function Current(d: Driver): (r: Option<string>)
    ensures d.OnNmcli? ==> r == Nmcli.Current(d.nmcli)
    ensures d.OnNetworksetup? ==> r == Networksetup.Current(d.networksetup)
  {
    match d
    case OnNmcli(n) => Nmcli.Current(n)
    case OnNetworksetup(m) => Networksetup.Current(m)
  }

  /** The facade adds nothing: its connect returns what the driver's connect returns, issues the
      same commands and leaves the driver in the same state. */
  lemma ConnectDelegates(d: Driver, ssid: string, password: string, run: Runner)
    ensures d.OnNmcli? ==>
      var inner := Nmcli.Connect(d.nmcli, ssid, password, run);
      var outer := Connect(d, ssid, password, run);
      && outer.issued == inner.issued
      && outer.outcome.Ok? == inner.outcome.Ok?
      && (outer.outcome.Ok? ==>
            outer.outcome.value.value == inner.outcome.value.value
            && outer.outcome.value.next == OnNmcli(inner.outcome.value.next))
    ensures d.OnNetworksetup? ==>
      var inner := Networksetup.Connect(d.networksetup, ssid, password, run);
      var outer := Connect(d, ssid, password, run);
      && outer.issued == inner.issued
      && outer.outcome.Ok?
      && outer.outcome.value.value == inner.outcome.value.value
      && outer.outcome.value.next == OnNetworksetup(inner.outcome.value.next)
  {
  }

  /** Whenever nmcli is found, whether or not networksetup is installed too, the facade drives a
      fresh nmcli driver and never probes for networksetup. */
  lemma NmcliWins(run: Runner)
    requires ToolFound(run(WhichNmcli))
    ensures New(run) == Run(Ok(OnNmcli(Nmcli.Fresh)), [WhichNmcli])
  {
  }

  /** On a Mac, construction probes both tools, then reads the hardware ports, and binds the
      driver to the detected device with no current network. */
  lemma NetworksetupConstruction(run: Runner)
    requires !ToolFound(run(WhichNmcli)) && ToolFound(run(WhichNetworksetup))
    ensures New(run).issued == [WhichNmcli, WhichNetworksetup, ListAllHardwarePorts]
    ensures New(run).outcome.Ok? <==> Networksetup.AutoDetectInterface(run(ListAllHardwarePorts)).Ok?
    ensures New(run).outcome.Ok? ==>
      New(run).outcome.value == OnNetworksetup(Networksetup.Driver(Networksetup.AutoDetectInterface(run(ListAllHardwarePorts)).value, None))
  {
  }

  /** A freshly constructed facade reports no current network, whichever driver it chose. */
  lemma NewHasNoCurrent(run: Runner)
    requires New(run).outcome.Ok?
    ensures Current(New(run).outcome.value) == None
  {
  }

  /** After a connect that returns true, `current` reports the SSID just connected to; after one
      that returns false, it reports `None`. */
  lemma ConnectThenCurrent(d: Driver, ssid: string, password: string, run: Runner)
    requires Connect(d, ssid, password, run).outcome.Ok?
    ensures var reply := Connect(d, ssid, password, run).outcome.value;
      Current(reply.next) == (if reply.value then Some(ssid) else None)
  {
    match d
    case OnNmcli(n) => Nmcli.ConnectThenCurrent(n, ssid, password, run);
    case OnNetworksetup(m) => Networksetup.ConnectThenCurrent(m, ssid, password, run);
  }
}
